=== FILE: README.md ===
# Weather widget: the fetch-and-render pipeline in Dafny

This project models the decision logic of a browser weather widget. It covers one city query (`getWeather`) and the renderers that query drives:
- `displayWeather`;
- `displayHourlyForecast`;
- `updateBackground`;
- the unit toggle `toggleTemp`;
- the create-once page elements `showLoading` and `showApiKeyError`.

The page is a value (`Session.Ui`), and every handler is a pure step function over it. A query is the sequence of its observable effects (`Session.Effect`):
- show or hide the loading indicator;
- the two requests;
- an alert or a key-error banner;
- panel, strip and background drawing.

`Session.Run` applies such a trace to a page. `Orchestrator.Route` names the outcome the `then`/`catch` chain ends in. It is built from the same `Thrown` and `Classify` as the handlers, so the independent statement of the rules is in the contracts of those two. `Orchestrator.QueryRealisesRoute` proves that running the trace leaves exactly the page that outcome describes. For example, the first of the two banner writes on a 401 never survives to the final page, and the loading indicator around the handlers changes nothing else. An alert leaves nothing on the page, so `Session.Alerts` lists the alerts a trace raises. The same lemma proves that a query raises exactly the alert its outcome names, and no other.

The two HTTP responses are inputs, as is the presence of the API key. Each response is either its parsed JSON body or a transport failure of the joined requests. The JavaScript library behaviour the widget leans on is written out in `Text`:
- `trim`;
- `toLowerCase`, ASCII only;
- `includes`;
- `padStart`;
- integer `toString`;
- `parseInt(_, 10)`: leading white space, an optional sign, the longest digit run (leading zeros included), and `NaN` when there are no digits.

Modules, in dependency order:
- `Options`: optional values.
- `Text`: the string operations.
- `Render`: the panel, the hourly strip, the Fahrenheit conversion and the background gradient.
- `Session`: the page state, the step functions, trace execution and the unit toggle.
- `Orchestrator`: status normalisation, the `then` and `catch` handlers, and `getWeather` as a trace.

Two behaviours of the code worth knowing:
- Fahrenheit is computed from the Celsius value *after* it was rounded (`script.js:64-65`, `95-96`). It is not computed from the raw reading. So a reading of 20.4 °C shows 20 °C and 68 °F, not 69 °F.
- The unit toggle does not merely skip the forecast redraw. It clears the strip and draws nothing into it (`script.js:89`, `113`), so the strip ends up empty (see Findings).

## Model

| member | source | states |
|---|---|---|
| Text.TrimStart | WeatherApplication/script.js:8 | the result is a suffix of the input; everything dropped is JavaScript white space; the result does not start with white space |
| Text.Trim | WeatherApplication/script.js:8 | the trimmed city is a slice of the field with only white space before and after it, and it neither starts nor ends with white space |
| Text.TrimEmptyIffBlank | WeatherApplication/script.js:8-12 | the trimmed city is empty exactly when every character of the field is white space, so the check on line 9 rejects exactly the blank fields |
| Text.TrimIdempotent | WeatherApplication/script.js:8 | trimming an already trimmed city changes nothing |
| Text.TrimKeepsInner | WeatherApplication/script.js:8 | a city without surrounding white space is sent exactly as typed |
| Text.LowerAscii | WeatherApplication/script.js:46 | lower-casing keeps the length, turns each upper-case ASCII letter into its lower-case partner (32 code points on) and keeps every other character |
| Text.LowerAsciiEqualIff | WeatherApplication/script.js:131 | two texts lower-case to the same text exactly when they differ only in the case of ASCII letters |
| Text.LowerAsciiIdempotent | WeatherApplication/script.js:131 | after lower-casing no upper-case letter remains, and lower-casing again changes nothing |
| Text.Includes | WeatherApplication/script.js:46 | `includes` is true exactly when the marker occurs at some position of the text |
| Text.NatToDecimal | WeatherApplication/script.js:94 | a number's decimal text is a non-empty run of digits with no leading zero unless the number is zero |
| Text.DecimalRoundTrip | WeatherApplication/script.js:71 | reading back the digits printed for a number gives the number |
| Text.DigitRun | WeatherApplication/script.js:25 | `parseInt` reads the longest prefix of digits: the run stops at the end or at the first non-digit |
| Text.DigitRunOfDigits | WeatherApplication/script.js:25 | the digit run of a digit string followed by a non-digit is that digit string |
| Text.IntToDecimal | WeatherApplication/script.js:71 | a temperature's text (here and on line 104) starts with a minus sign exactly when the number is negative, and is all digits otherwise |
| Text.IntToDecimalIsNumeral | WeatherApplication/script.js:71 | the text of an integer is its canonical numeral: the sign exactly for a negative number, then digits without a leading zero whose value is the magnitude |
| Text.ParseInt | WeatherApplication/script.js:25 | `parseInt(_, 10)` gives a number for any text starting with a digit; `ParseIntOfParts` and `SplitForParse` state its result for every text |
| Text.ParseIntOfParts | WeatherApplication/script.js:25 | a text made of white space, at most one sign, a digit run and a rest that does not continue it parses to `NaN` when the run is empty, and otherwise to the run's value (leading zeros ignored), negated after a minus sign |
| Text.SplitForParse | WeatherApplication/script.js:25 | every text splits into those four parts, so the previous row covers every input |
| Text.ParseIntLetterFirst | WeatherApplication/script.js:25 | a letter before the digits makes the status unreadable: "x401" parses to `NaN`, not 401 |
| Text.ParseIntWithoutDigits | WeatherApplication/script.js:25 | a status text with no digit in it parses to `NaN` |
| Text.ParseIntOfDecimal | WeatherApplication/script.js:25 | `parseInt` of a printed integer followed by any non-digit text gives that integer, negative ones included |
| Text.PadStart | WeatherApplication/script.js:94 | padding yields at least the requested width, keeps the original text as the suffix and fills only the front |
| Render.Fahrenheit | WeatherApplication/script.js:65 | the Fahrenheit value is the integer nearest to 9c/5 + 32 for the rounded Celsius value c |
| Render.FahrenheitUnique | WeatherApplication/script.js:65 | only one integer lies within half a degree of 9c/5 + 32, so the conversion is fully determined |
| Render.FahrenheitLandmarks | WeatherApplication/script.js:96 | 0 °C shows 32 °F, 100 shows 212, -40 shows -40, 37 shows 99 |
| Render.FahrenheitMonotone | WeatherApplication/script.js:65 | a warmer Celsius reading never shows a colder Fahrenheit value |
| Render.TempText | WeatherApplication/script.js:71 | the temperature text ends in the degree sign and the letter of the active unit |
| Render.TempTextIsNumeral | WeatherApplication/script.js:71 | the temperature text is exactly the canonical numeral of the number shown in the active unit, then the degree sign and the unit letter, with nothing before or between them |
| Render.TempTextParsesBack | WeatherApplication/script.js:64-65 | the temperature text carries exactly the rounded value in the active unit: parsing it back gives that number |
| Render.ToggleLabel | WeatherApplication/script.js:72 | the button caption ends in the degree sign and the letter of the unit not on display |
| Render.LabelNamesOtherUnit | WeatherApplication/script.js:71-72 | the button's last character names the other unit, which is the unit the other setting shows; the two settings' texts differ |
| Render.HourLabel | WeatherApplication/script.js:94 | the hour caption is five characters and ends in ":00" |
| Render.HourLabelDigits | WeatherApplication/script.js:94 | the caption's first two characters are the hour's two decimal digits, with a leading zero exactly before ten o'clock |
| Render.HourLabelInjective | WeatherApplication/script.js:94 | different hours get different captions |
| Render.DisplayWeather | WeatherApplication/script.js:63-77 | the panel shows the active unit, offers the other unit, and copies city, description and icon from the record |
| Render.Items | WeatherApplication/script.js:100-106 | one cell per entry, in order, each rendered from its own entry |
| Render.ItemsAppend | WeatherApplication/script.js:100 | rendering one more entry appends exactly one more cell (the `+=` of line 100) |
| Render.Strip | WeatherApplication/script.js:89-92 | the strip holds as many cells as the smaller of the entry count and 8, and cell i renders entry i |
| Render.BuildStrip | WeatherApplication/script.js:87-108 | clearing and then appending one cell per entry of the first eight builds exactly the reference strip |
| Render.StripKeepsFirstEight | WeatherApplication/script.js:92 | entries after the eighth never reach the page |
| Render.Background | WeatherApplication/script.js:127-152 | each of the five gradients is chosen exactly when the lower-cased keyword is its keyword; every other keyword gets the default |
| Render.BackgroundIgnoresCase | WeatherApplication/script.js:131 | keywords that differ only in the case of ASCII letters pick the same gradient |
| Render.BackgroundExamples | WeatherApplication/script.js:131-149 | "Rain" and "rain" agree; "Tornado" gets the default; "THUNDERSTORM" gets the storm gradient |
| Render.GradientsDistinct | WeatherApplication/script.js:132-148 | the six gradients are six different style strings |
| Session.ShowLoading | WeatherApplication/script.js:116-125 | after the call the indicator exists and shows exactly as asked; nothing else on the page changes |
| Session.LoaderIsReused | WeatherApplication/script.js:117-124 | a second call reuses the indicator instead of creating another; the last call decides its visibility |
| Session.ShowApiKeyError | WeatherApplication/script.js:155-176 | after the call the banner exists and holds the given message; nothing else changes |
| Session.BannerIsReused | WeatherApplication/script.js:157-175 | a second message overwrites the first in the same banner |
| Session.ShowCurrent | WeatherApplication/script.js:55-85 | the panel is redrawn for the record in the active unit and the toggle button is bound to that record; nothing else changes |
| Session.ShowHourly | WeatherApplication/script.js:87-108 | the strip is replaced by the cells of the first eight entries; nothing else changes |
| Session.HourlyDoesNotAccumulate | WeatherApplication/script.js:89 | drawing the strip twice leaves only the second drawing, never more than eight cells |
| Session.ToggleTemp | WeatherApplication/script.js:110-114 | the unit flips, the panel is redrawn from the bound record in the new unit, and the strip is redrawn in the new unit from the record's `hourly` entries, so it is emptied when the record has none |
| Session.ClickToggle | WeatherApplication/script.js:84 | a click does nothing before a panel was drawn; otherwise it flips the unit, redraws the panel for the bound record in the new unit, and redraws the strip in the new unit from that record's `hourly` entries |
| Session.ToggleTwiceRestores | WeatherApplication/script.js:110-113 | two toggles restore the unit and the panel exactly, with no rounding drift; only the strip is redrawn from `data.hourly` |
| Session.ClickTwiceRestores | WeatherApplication/script.js:84 | for a bound record without `hourly`, as every current-weather record is, two clicks give back the page except that the strip is left empty |
| Session.ToggleLosesForecast | WeatherApplication/script.js:113 | as written, toggling after a query that drew a forecast empties the strip, and toggling twice does not give the page back |
| Session.ToggleTempRetained | WeatherApplication/script.js:113 | corrected toggle: the strip is redrawn in the new unit from the entries it was last drawn from |
| Session.RetainedToggleTwiceRestores | WeatherApplication/script.js:110-113 | with the corrected toggle a consistently drawn page stays consistent, and two toggles give back exactly the same page |
| Session.ClickToggleRetained | WeatherApplication/script.js:84 | a click under the corrected toggle flips the unit, redraws the panel in the new unit, and redraws the strip in the new unit from the entries it was last drawn from |
| Orchestrator.NormaliseCode | WeatherApplication/script.js:25 | a numeric status is used as is; a missing status normalises to `NaN` |
| Orchestrator.TextCodeAgreesWithNumber | WeatherApplication/script.js:25 | a status sent as text such as "401" or "404 " normalises to the same code as the number it spells |
| Orchestrator.TextCodeWithoutDigits | WeatherApplication/script.js:25 | a textual status with no digits is neither success nor unauthorised |
| Orchestrator.OrElse | WeatherApplication/script.js:34 | `a \|\| b` on strings is `a` when `a` is non-empty and `b` otherwise |
| Orchestrator.Thrown | WeatherApplication/script.js:23-35 | the `then` callback throws exactly when the status is not 200, with the fixed text on 401 and otherwise the provider's message or "City not found"; the thrown message is never empty |
| Orchestrator.UnauthorizedMessageIsKeyProblem | WeatherApplication/script.js:28 | the fixed 401 text contains the marker the catch handler looks for |
| Orchestrator.Classify | WeatherApplication/script.js:41-51 | without a key the configuration banner always wins; with a key, a message containing the marker in any letter case goes to the banner and anything else becomes an alert with the default text for an empty message |
| Orchestrator.Catch | WeatherApplication/script.js:41-51 | the catch handler has exactly one visible effect: without a key the configuration banner; with a key, the banner with the error's own message, or an alert with the message or the default text |
| Orchestrator.Route | WeatherApplication/script.js:19-51 | the query renders exactly when both bodies arrived and the status is 200; a 401 ends on the key banner; without a key every failure ends on the configuration banner |
| Orchestrator.Settle | WeatherApplication/script.js:23-51 | the handlers never touch the loading indicator and never issue a request |
| Orchestrator.GetWeather | WeatherApplication/script.js:7-53 | a blank field is answered by the empty-city alert alone; any other query starts by showing the indicator and ends by hiding it |
| Orchestrator.BlankCityIsRejected | WeatherApplication/script.js:8-12 | a blank field gives one alert, no request, no indicator, and an unchanged page |
| Orchestrator.RequestsShareCity | WeatherApplication/script.js:16-22 | a non-blank field sends exactly two requests, current weather then forecast, both for the trimmed city |
| Orchestrator.LoaderScoped | WeatherApplication/script.js:14-52 | the indicator is shown first, stays visible through every later effect but the last, and is hidden at the end, whatever the outcome |
| Orchestrator.QueryShape | WeatherApplication/script.js:14-52 | a query for a non-blank city is its two requests and the handlers' effects, between showing and hiding the indicator |
| Orchestrator.QueryRealisesRoute | WeatherApplication/script.js:7-53 | running a query's effects leaves the page exactly as its routed outcome describes, with the indicator hidden, and the query raises exactly the outcome's alert |
| Orchestrator.CatchRealisesClassify | WeatherApplication/script.js:44-50 | the catch handler's effects realise its classification: the banner it names, or exactly its alert |
| Orchestrator.AlertsOfCatch | WeatherApplication/script.js:49 | the catch handler raises one alert, with the classified text, exactly when the error is classified as an alert, and none otherwise |
| Orchestrator.RenderRealisesRendered | WeatherApplication/script.js:37-39 | a successful body draws the panel, the strip and the background, and nothing else |
| Orchestrator.SettleRealisesRoute | WeatherApplication/script.js:23-51 | the `then`/`catch` effects alone realise the routed outcome, on the page and in the alert they raise |
| Orchestrator.AlertsOfSettle | WeatherApplication/script.js:23-51 | the `then` callback and the catch handler raise one alert, with the routed text, when the query ends on an alert, and none when it renders or ends on the banner |
| Orchestrator.AlertsOfQuery | WeatherApplication/script.js:7-53 | a blank field raises only the empty-city alert; any other query raises exactly the routed outcome's alert, since the requests and the indicator raise none |
| Orchestrator.UnauthorizedWins | WeatherApplication/script.js:26-31 | a 401 ends on the banner whatever the forecast holds, and nothing but banner writes happen |
| Orchestrator.SettleOn401 | WeatherApplication/script.js:26-31 | on a 401 the banner is written twice: first with the 401 text, then by the catch handler with the 401 text or, without a key, the configuration text |
| Orchestrator.CatchOf401 | WeatherApplication/script.js:44-47 | the catch handler sends the 401 error to the banner, not to an alert |
| Orchestrator.MissingKeyOverwrites401 | WeatherApplication/script.js:44-45 | without a key the 401 text is overwritten and the banner ends with the configuration text |
| Orchestrator.OtherStatusIsReported | WeatherApplication/script.js:33-34 | any status other than 200 and 401, unreadable ones included, is alerted with the provider's message or "City not found" |
| Orchestrator.MissingCodeIsError | WeatherApplication/script.js:25 | a body without a status is never rendered and throws the provider's message or "City not found" |
| Orchestrator.TransportFailureIsReported | WeatherApplication/script.js:41-51 | a failed request never renders; with a key and no message it alerts the default text |

## Left out

- Network and JSON decoding: `fetch`, `res.json()` and the request URLs (`script.js:16-22`) are not modelled. A request is an effect naming its endpoint and city. A failure of either request, or of either JSON decoding, is one `TransportFailure` carrying the error's message.
- The API key's value: only whether one is configured matters to the logic (`script.js:4`, `44`), so the model takes a boolean.
- `console.error` (`script.js:43`) is a log with no effect on the page.
- A 200 current-weather body without `main` or without `weather[0]`: `displayWeather` empties the panel (`script.js:60-61`) and then throws a `TypeError` on line 64 or 66. The catch handler alerts that error's message, or shows the configuration banner when no key is set. The model's current-weather record always carries these fields, so it always draws a full panel.
- A 200 response whose forecast body lacks `list`: the panel would be drawn, then `displayHourlyForecast` would clear the strip (`script.js:89`) and throw a `TypeError` on line 92 into the catch handler, so the previous strip would be wiped as well. The model assumes a 200 forecast body carries its list.
- Numeric `cod` values that are not integers: `NumberCod` holds an integer, so a status such as 401.5 is not represented.
- Raw temperatures: readings arrive already rounded to whole degrees Celsius (`Math.round` on line 64 or 95). The floating-point rounding of the raw reading is not modelled.
- Render.Fahrenheit: exact for the integer Celsius values the widget produces. Floating-point error of `tempC * 9 / 5` for temperatures far beyond any real reading is not modelled.
- Text.NatToDecimal: does not model JavaScript's exponent notation for numbers of 10^21 and above, which no temperature reaches.
- Clock hours: `new Date(item.dt * 1000).getHours()` depends on the local time zone, so each forecast entry carries its hour (0-23) directly.
- Text.LowerAscii: lower-cases ASCII letters only. Full Unicode `toLowerCase` also maps other letters, and two of them produce ASCII letters. KELVIN SIGN (U+212A) becomes 'k', and no keyword and no marker contains 'k'. LATIN CAPITAL LETTER I WITH DOT ABOVE (U+0130) becomes two characters, 'i' followed by COMBINING DOT ABOVE (U+0307), so that mapping does not keep the length. An 'i' made this way is always followed by U+0307. Every 'i' in "invalid or missing" and in "rain" is followed by an ASCII letter. So neither mapping changes any comparison the widget makes.
- Markup and styling: icon URLs, `alt` text, inline styles of the banner and the indicator, the banner's warning sign and FAQ link, and the spinner markup. `Session.Banner` stores only the message.
- Asynchrony: the model follows one query from start to finish. Overlapping queries, cancellation and time-outs are not modelled.

## Findings

| source | as written | input that shows it | evidently intended | confidence | as-written member | corrected member |
|---|---|---|---|---|---|---|
| WeatherApplication/script.js:113 | `toggleTemp` redraws the strip from `data.hourly \|\| []`, but the record bound to the button is the current-weather body, which has no `hourly` field; the strip is cleared and stays empty | any click on the unit button after a query that drew a non-empty forecast | redraw the forecast strip in the new unit, as the comment on line 113 says, from the entries last drawn | not executed | Session.ToggleLosesForecast | Session.RetainedToggleTwiceRestores |

=== FILE: options.dfy ===
/** Optional values: a page element that may not have been created yet, a
    record field the weather provider may leave out. */
module Options {

  datatype Option<+T> = None | Some(value: T) {

    /** The value if present, otherwise `default`. */
    function GetOr(default: T): T {
      match this
      case Some(v) => v
      case None => default
    }
  }
}

=== FILE: orchestrator.dfy ===
/** `getWeather`: read the city field, issue the two requests, validate the
    current-weather body, then render or report. The two responses (or the
    transport failure that rejected their join) are inputs; the result is the
    sequence of effects on the page, in order. */
module Orchestrator {
  import opened Options
  import opened Text
  import opened Render
  import opened Session

  const Ok: int := 200
  const Unauthorized: int := 401

  const EmptyCityAlert := "Please enter a city name!"
  /** The fixed 401 text. It is written in two pieces, which spell the same
      text, so that proofs can read its first words. */
  const UnauthorizedMessage := "Invalid or missing" + " OpenWeather API key. See https://openweathermap.org/faq#error401 for help."
  const NoKeyMessage := "No OpenWeather API key configured. Create a file named `config.js` that sets OPENWEATHER_API_KEY. See README."
  const CityNotFound := "City not found"
  const FetchFailedDefault := "An error occurred while fetching weather."
  /** The text the catch handler looks for, after lower-casing the error message. */
  const KeyProblemMarker := "invalid or missing"
  /** A warning sign (U+26A0 with emoji presentation) and a space. */
  const AlertPrefix := "\U{26A0}\U{FE0F} "

  /** The `cod` field of the current-weather body: a JSON number, a string, or
      absent (`undefined` or `null`). */
  datatype Cod = NumberCod(n: int) | TextCod(text: string) | NoCod

  /** The parsed current-weather body. An absent `message` is the empty string:
      both are falsy to `||`. */
  datatype CurrentBody = CurrentBody(cod: Cod, message: string, data: CurrentData)

  datatype ForecastBody = ForecastBody(list: seq<ForecastEntry>)

  /** What the join of the two requests delivers: a transport or JSON failure
      of either request, or both parsed bodies. */
  datatype Fetched = TransportFailure(message: string) | Responses(current: CurrentBody, forecast: ForecastBody)

  /** How a query ends. */
  datatype Outcome = Rendered(current: CurrentData, forecast: seq<ForecastEntry>) | KeyBanner(message: string) | Alerted(text: string)

  /** Numbers are used as they are; anything else goes through `parseInt(_, 10)`,
      where an absent field reads as the text "undefined". */
  function NormaliseCode(c: Cod): (k: Parsed)
    ensures c.NumberCod? ==> k == Num(c.n)
    ensures c.NoCod? ==> k == NaN
  {
    match c
    case NumberCod(n) => Num(n)
    case TextCod(t) => ParseInt(t)
    case NoCod => ParseIntWithoutDigits("undefined"); ParseInt("undefined")
  }

  /** A status sent as text normalises to the same code as the number it
      spells, trailing non-digits and all ("401", "404 "). */
  lemma TextCodeAgreesWithNumber(n: int, rest: string)
    requires rest == [] || !IsDigit(rest[0])
    ensures NormaliseCode(TextCod(IntToDecimal(n) + rest)) == NormaliseCode(NumberCod(n))
  {
    ParseIntOfDecimal(n, rest);
  }

  /** A textual status with no digit in it is `NaN`, equal to neither 200 nor 401. */
  lemma TextCodeWithoutDigits(t: string)
    requires forall i :: 0 <= i < |t| ==> !IsDigit(t[i])
    ensures NormaliseCode(TextCod(t)) == NaN
    ensures NormaliseCode(TextCod(t)) != Num(Ok) && NormaliseCode(TextCod(t)) != Num(Unauthorized)
  {
    ParseIntWithoutDigits(t);
  }

  /** JavaScript's `a || b` on two strings. */
  function OrElse(a: string, b: string): (r: string)
    ensures a != [] ==> r == a
    ensures a == [] ==> r == b
  {
    if a != [] then a else b
  }

  /** The `then` callback's verdict on the current-weather body: `None` when
      it goes on to render, `Some(m)` when it throws `Error(m)`. */
  function Thrown(cur: CurrentBody): (t: Option<string>)
    ensures t.None? <==> NormaliseCode(cur.cod) == Num(Ok)
    ensures NormaliseCode(cur.cod) == Num(Unauthorized) ==> t == Some(UnauthorizedMessage)
    ensures NormaliseCode(cur.cod) != Num(Unauthorized) && t.Some? ==>
      t.value == (if cur.message != [] then cur.message else CityNotFound)
    ensures t.Some? ==> t.value != []
  {
    var code := NormaliseCode(cur.cod);
    if code == Num(Unauthorized) then Some(UnauthorizedMessage)
    else if code != Num(Ok) then Some(OrElse(cur.message, CityNotFound))
    else None
  }

  /** The fixed 401 message is itself recognised as a key problem. */
  lemma UnauthorizedMessageIsKeyProblem()
    ensures Includes(LowerAscii(UnauthorizedMessage), KeyProblemMarker)
  {
    var low := LowerAscii(UnauthorizedMessage);
    assert UnauthorizedMessage[..18] == "Invalid or missing" by {
      var a := "Invalid or missing";
      assert |a| == 18;
    }
    assert low[..18] == LowerAscii("Invalid or missing");
    assert LowerAscii("Invalid or missing") == KeyProblemMarker;
    assert OccursAt(low, KeyProblemMarker, 0);
  }

  /** The catch handler's classification of an error message. */
  function Classify(keyPresent: bool, message: string): (o: Outcome)
    ensures !o.Rendered?
    ensures !keyPresent ==> o == KeyBanner(NoKeyMessage)
    ensures keyPresent ==>
      (o.KeyBanner? <==> message != [] && exists i :: OccursAt(LowerAscii(message), KeyProblemMarker, i))
    ensures keyPresent && o.KeyBanner? ==> o.message == message
    ensures o.Alerted? ==> o.text == AlertPrefix + (if message != [] then message else FetchFailedDefault)
  {
    if !keyPresent then KeyBanner(NoKeyMessage)
    else if message != [] && Includes(LowerAscii(message), KeyProblemMarker) then KeyBanner(message)
    else Alerted(AlertPrefix + OrElse(message, FetchFailedDefault))
  }

  /** How a query with a non-empty city ends, given the key status and what
      the two requests delivered. */
  function Route(keyPresent: bool, f: Fetched): (o: Outcome)
    ensures o.Rendered? <==> f.Responses? && NormaliseCode(f.current.cod) == Num(Ok)
    ensures o.Rendered? ==> o == Rendered(f.current.data, f.forecast.list)
    ensures f.Responses? && NormaliseCode(f.current.cod) == Num(Unauthorized) ==>
      o == KeyBanner(if keyPresent then UnauthorizedMessage else NoKeyMessage)
    ensures !keyPresent && !o.Rendered? ==> o == KeyBanner(NoKeyMessage)
  {
    match f
    case TransportFailure(m) => Classify(keyPresent, m)
    case Responses(cur, fc) =>
      match Thrown(cur)
      case None => Rendered(cur.data, fc.list)
      case Some(m) =>
        UnauthorizedMessageIsKeyProblem();
        Classify(keyPresent, m)
  }

  /** The effects of the catch handler for an error message. */
  function Catch(keyPresent: bool, message: string): (es: seq<Effect>)
    ensures |es| == 1 && (es[0].ShowKeyError? || es[0].Alert?)
    ensures !keyPresent ==> es == [ShowKeyError(NoKeyMessage)]
    ensures keyPresent && es[0].ShowKeyError? ==> es[0].message == message
    ensures es[0].Alert? ==> es[0].text == AlertPrefix + (if message != [] then message else FetchFailedDefault)
  {
    match Classify(keyPresent, message)
    case KeyBanner(m) => [ShowKeyError(m)]
    case Alerted(t) => [Alert(t)]
    case Rendered(_, _) => []
  }

  /** The effects of the `then` callback followed by the catch handler. On a
      401 the banner is written before the error is thrown, so the catch
      handler may write it a second time. */
  function Settle(keyPresent: bool, f: Fetched): (es: seq<Effect>)
    ensures LoaderFree(es)
    ensures forall i :: 0 <= i < |es| ==> !es[i].Fetch?
  {
    match f
    case TransportFailure(m) => Catch(keyPresent, m)
    case Responses(cur, fc) =>
      match Thrown(cur)
      case None => [ShowWeather(cur.data), ShowForecast(fc.list), SetBackground(cur.data.main)]
      case Some(m) =>
        (if NormaliseCode(cur.cod) == Num(Unauthorized) then [ShowKeyError(m)] else []) + Catch(keyPresent, m)
  }

  /** The two requests, both addressed by the same city. */
  function Requests(city: string): seq<Effect> {
    [Fetch(CurrentWeather, city), Fetch(Forecast, city)]
  }

  /** `getWeather` as the sequence of its effects. */
  function GetWeather(cityField: string, keyPresent: bool, f: Fetched): (es: seq<Effect>)
    ensures IsBlank(cityField) ==> es == [Alert(EmptyCityAlert)]
    ensures !IsBlank(cityField) ==> |es| >= 4 && es[0] == SetLoader(true) && es[|es| - 1] == SetLoader(false)
  {
    TrimEmptyIffBlank(cityField);
    var city := Trim(cityField);
    if city == [] then [Alert(EmptyCityAlert)]
    else [SetLoader(true)] + (Requests(city) + Settle(keyPresent, f)) + [SetLoader(false)]
  }

  /** The page an outcome leaves behind, the loading indicator aside. */
  function Settled(u: Ui, o: Outcome): Ui {
    match o
    case Rendered(c, fs) =>
      u.(panel := Some(DisplayWeather(c, u.isCelsius)), toggleTarget := Some(c),
         strip := Strip(fs, u.isCelsius), stripSource := fs, background := Some(Background(c.main)))
    case KeyBanner(m) => u.(banner := Some(Banner(m)))
    case Alerted(_) => u
  }

  /** The alerts an outcome stands for: its text when it ends on an alert,
      none otherwise. */
  function RaisedAlerts(o: Outcome): seq<string> {
    if o.Alerted? then [o.text] else []
  }

  /** The catch handler raises an alert exactly when it classifies the error
      as one, and with that text. */
  lemma AlertsOfCatch(keyPresent: bool, m: string)
    ensures Alerts(Catch(keyPresent, m)) == RaisedAlerts(Classify(keyPresent, m))
  {
    var o := Classify(keyPresent, m);
    if o.KeyBanner? {
      AlertsOne(ShowKeyError(o.message));
    } else {
      AlertsOne(Alert(o.text));
    }
  }

  /** Drawing a successful body raises no alert. */
  lemma RenderRaisesNoAlert(d: CurrentData, fs: seq<ForecastEntry>)
    ensures Alerts([ShowWeather(d), ShowForecast(fs), SetBackground(d.main)]) == []
  {
    var es := [ShowWeather(d), ShowForecast(fs), SetBackground(d.main)];
    assert es == [es[0]] + ([es[1]] + [es[2]]);
    AlertsAppend([es[0]], [es[1]] + [es[2]]);
    AlertsAppend([es[1]], [es[2]]);
    AlertsOne(es[0]);
    AlertsOne(es[1]);
    AlertsOne(es[2]);
  }

  /** The `then` callback and the catch handler together raise one alert,
      with the routed text, when the query ends on an alert, and none
      otherwise. */
  lemma AlertsOfSettle(keyPresent: bool, f: Fetched)
    ensures Alerts(Settle(keyPresent, f)) == RaisedAlerts(Route(keyPresent, f))
  {
    match f
    case TransportFailure(m) =>
      AlertsOfCatch(keyPresent, m);
    case Responses(cur, fc) =>
      match Thrown(cur)
      case None =>
        RenderRaisesNoAlert(cur.data, fc.list);
      case Some(m) =>
        var head: seq<Effect> := if NormaliseCode(cur.cod) == Num(Unauthorized) then [ShowKeyError(m)] else [];
        assert Settle(keyPresent, f) == head + Catch(keyPresent, m);
        assert Route(keyPresent, f) == Classify(keyPresent, m);
        AlertsAppend(head, Catch(keyPresent, m));
        AlertsOne(ShowKeyError(m));
        AlertsOfCatch(keyPresent, m);
  }

  /** The requests raise no alert. */
  lemma RequestsRaiseNoAlert(city: string)
    ensures Alerts(Requests(city)) == []
  {
    assert Requests(city) == [Fetch(CurrentWeather, city)] + [Fetch(Forecast, city)];
    AlertsAppend([Fetch(CurrentWeather, city)], [Fetch(Forecast, city)]);
    AlertsOne(Fetch(CurrentWeather, city));
    AlertsOne(Fetch(Forecast, city));
  }

  /** A query alerts the empty-city text for a blank field; otherwise it
      raises exactly the routed outcome's alert, since the requests and the
      indicator raise none. */
  lemma AlertsOfQuery(cityField: string, keyPresent: bool, f: Fetched)
    ensures Alerts(GetWeather(cityField, keyPresent, f)) ==
      if IsBlank(cityField) then [EmptyCityAlert] else RaisedAlerts(Route(keyPresent, f))
  {
    TrimEmptyIffBlank(cityField);
    if IsBlank(cityField) {
      AlertsOne(Alert(EmptyCityAlert));
    } else {
      var middle := QueryShape(cityField, keyPresent, f);
      AlertsAppend([SetLoader(true)] + middle, [SetLoader(false)]);
      AlertsAppend([SetLoader(true)], middle);
      AlertsAppend(Requests(Trim(cityField)), Settle(keyPresent, f));
      AlertsOne(SetLoader(true));
      AlertsOne(SetLoader(false));
      RequestsRaiseNoAlert(Trim(cityField));
      AlertsOfSettle(keyPresent, f);
    }
  }

  /** A blank city is answered by one alert: no request, no loading
      indicator, and the page is left as it was. */
  lemma BlankCityIsRejected(u: Ui, cityField: string, keyPresent: bool, f: Fetched)
    requires IsBlank(cityField)
    ensures GetWeather(cityField, keyPresent, f) == [Alert(EmptyCityAlert)]
    ensures Run(u, GetWeather(cityField, keyPresent, f)) == u
  {
    TrimEmptyIffBlank(cityField);
    assert Run(u, [Alert(EmptyCityAlert)]) == Step(Run(u, []), Alert(EmptyCityAlert));
  }

  /** A city with any non-blank character sends exactly two requests, one per
      endpoint, both for the trimmed city. */
  lemma RequestsShareCity(cityField: string, keyPresent: bool, f: Fetched)
    requires !IsBlank(cityField)
    ensures var t := GetWeather(cityField, keyPresent, f);
      && |t| >= 4
      && t[1] == Fetch(CurrentWeather, Trim(cityField))
      && t[2] == Fetch(Forecast, Trim(cityField))
      && forall i :: 0 <= i < |t| && t[i].Fetch? ==> i == 1 || i == 2
  {
    var middle := QueryShape(cityField, keyPresent, f);
    OnlyTheRequestsFetch(Trim(cityField), Settle(keyPresent, f));
  }

  /** Between the indicator's effects, only the two requests fetch. */
  lemma OnlyTheRequestsFetch(city: string, es: seq<Effect>)
    requires forall i :: 0 <= i < |es| ==> !es[i].Fetch?
    ensures var t := [SetLoader(true)] + (Requests(city) + es) + [SetLoader(false)];
      && |t| >= 4
      && t[1] == Fetch(CurrentWeather, city)
      && t[2] == Fetch(Forecast, city)
      && forall i :: 0 <= i < |t| && t[i].Fetch? ==> i == 1 || i == 2
  {
    var t := [SetLoader(true)] + (Requests(city) + es) + [SetLoader(false)];
    forall i | 0 <= i < |t| && i != 1 && i != 2 ensures !t[i].Fetch? {
      if 3 <= i < |t| - 1 {
        assert t[i] == es[i - 3];
      }
    }
  }

  /** The loading indicator is shown first, stays visible after every
      effect up to the last, and the last effect hides it, whatever the
      outcome. */
  lemma LoaderScoped(u: Ui, cityField: string, keyPresent: bool, f: Fetched)
    requires !IsBlank(cityField)
    ensures var t := GetWeather(cityField, keyPresent, f);
      && |t| >= 4 && t[0] == SetLoader(true)
      && (forall k :: 1 <= k < |t| ==> Run(u, t[..k]).loader == Some(Loader(true)))
      && Run(u, t).loader == Some(Loader(false))
  {
    var middle := QueryShape(cityField, keyPresent, f);
    var t := GetWeather(cityField, keyPresent, f);
    Bracketed(u, middle);
  }

  /** A query for a non-blank city is its two requests and the settled
      effects, between showing and hiding the loading indicator. */
  lemma QueryShape(cityField: string, keyPresent: bool, f: Fetched) returns (middle: seq<Effect>)
    requires !IsBlank(cityField)
    ensures middle == Requests(Trim(cityField)) + Settle(keyPresent, f)
    ensures LoaderFree(middle)
    ensures GetWeather(cityField, keyPresent, f) == [SetLoader(true)] + middle + [SetLoader(false)]
  {
    TrimEmptyIffBlank(cityField);
    RequestsLeaveLoader(Trim(cityField), Settle(keyPresent, f));
    middle := Requests(Trim(cityField)) + Settle(keyPresent, f);
  }

  /** The requests do not touch the loading indicator. */
  lemma RequestsLeaveLoader(city: string, es: seq<Effect>)
    requires LoaderFree(es)
    ensures LoaderFree(Requests(city) + es)
  {
    var t := Requests(city) + es;
    forall i | 0 <= i < |t| ensures !t[i].SetLoader? {
      if i >= 2 {
        assert t[i] == es[i - 2];
      }
    }
  }

  /** The effects of a query leave the page exactly as its outcome says, with
      the loading indicator hidden, and raise exactly the outcome's alert. */
  lemma QueryRealisesRoute(u: Ui, cityField: string, keyPresent: bool, f: Fetched)
    requires !IsBlank(cityField)
    ensures Run(u, GetWeather(cityField, keyPresent, f))
      == Settled(u, Route(keyPresent, f)).(loader := Some(Loader(false)))
    ensures Alerts(GetWeather(cityField, keyPresent, f)) == RaisedAlerts(Route(keyPresent, f))
  {
    AlertsOfQuery(cityField, keyPresent, f);
    TrimEmptyIffBlank(cityField);
    var city := Trim(cityField);
    var es := Settle(keyPresent, f);
    var middle := Requests(city) + es;
    RunAppend(u, [SetLoader(true)] + middle, [SetLoader(false)]);
    RunAppend(u, [SetLoader(true)], middle);
    RunOne(u, SetLoader(true));
    StepByEffect(u, SetLoader(true));
    var started := ShowLoading(u, true);
    RunAppend(started, Requests(city), es);
    RequestsChangeNothing(started, city);
    SettleRealisesRoute(started, keyPresent, f);
    HideAfterSettled(u, Route(keyPresent, f));
  }

  /** Issuing the requests changes nothing on the page by itself. */
  lemma RequestsChangeNothing(u: Ui, city: string)
    ensures Run(u, Requests(city)) == u
  {
    var rs := Requests(city);
    assert rs[1..] == [Fetch(Forecast, city)];
    RunOne(u, Fetch(Forecast, city));
    StepByEffect(u, Fetch(CurrentWeather, city));
    StepByEffect(u, Fetch(Forecast, city));
  }

  /** Hiding the indicator after the outcome was realised. */
  lemma HideAfterSettled(u: Ui, o: Outcome)
    ensures Run(Settled(ShowLoading(u, true), o), [SetLoader(false)]) == Settled(u, o).(loader := Some(Loader(false)))
  {
    var settled := Settled(ShowLoading(u, true), o);
    RunOne(settled, SetLoader(false));
    StepByEffect(settled, SetLoader(false));
    SettledKeepsLoader(u, o, true, false);
  }

  /** `Settled` does not read or write the indicator. */
  lemma SettledKeepsLoader(u: Ui, o: Outcome, before: bool, after: bool)
    ensures ShowLoading(Settled(ShowLoading(u, before), o), after) == ShowLoading(Settled(u, o), after)
  {
  }

  /** The catch handler's effects realise its classification, on the page
      and in the alert it raises. */
  lemma CatchRealisesClassify(u: Ui, keyPresent: bool, m: string)
    ensures Run(u, Catch(keyPresent, m)) == Settled(u, Classify(keyPresent, m))
    ensures Alerts(Catch(keyPresent, m)) == RaisedAlerts(Classify(keyPresent, m))
  {
    AlertsOfCatch(keyPresent, m);
    var o := Classify(keyPresent, m);
    if o.KeyBanner? {
      RunOne(u, ShowKeyError(o.message));
      StepByEffect(u, ShowKeyError(o.message));
    } else {
      RunOne(u, Alert(o.text));
      StepByEffect(u, Alert(o.text));
    }
  }

  /** A successful body draws the panel, the strip and the background. */
  lemma RenderRealisesRendered(u: Ui, d: CurrentData, fs: seq<ForecastEntry>)
    ensures Run(u, [ShowWeather(d), ShowForecast(fs), SetBackground(d.main)]) == Settled(u, Rendered(d, fs))
  {
    RunThree(u, ShowWeather(d), ShowForecast(fs), SetBackground(d.main));
    StepByEffect(u, ShowWeather(d));
    var drawn := ShowCurrent(u, d);
    StepByEffect(drawn, ShowForecast(fs));
    var stripped := ShowHourly(drawn, fs);
    StepByEffect(stripped, SetBackground(d.main));
  }

  /** The `then`/`catch` effects alone realise the routed outcome, on the page
      and in the alert they raise. */
  lemma SettleRealisesRoute(u: Ui, keyPresent: bool, f: Fetched)
    ensures Run(u, Settle(keyPresent, f)) == Settled(u, Route(keyPresent, f))
    ensures Alerts(Settle(keyPresent, f)) == RaisedAlerts(Route(keyPresent, f))
  {
    AlertsOfSettle(keyPresent, f);
    match f
    case TransportFailure(m) =>
      CatchRealisesClassify(u, keyPresent, m);
    case Responses(cur, fc) =>
      match Thrown(cur)
      case None =>
        RenderRealisesRendered(u, cur.data, fc.list);
      case Some(m) =>
        var tail := Catch(keyPresent, m);
        assert Route(keyPresent, f) == Classify(keyPresent, m);
        if NormaliseCode(cur.cod) == Num(Unauthorized) {
          assert Settle(keyPresent, f) == [ShowKeyError(m)] + tail;
          assert ([ShowKeyError(m)] + tail)[1..] == tail;
          CatchRealisesClassify(ShowApiKeyError(u, m), keyPresent, m);
          UnauthorizedMessageIsKeyProblem();
        } else {
          assert Settle(keyPresent, f) == tail;
          CatchRealisesClassify(u, keyPresent, m);
        }
  }

  /** A 401 takes priority over everything: nothing is drawn and no alert is
      raised, whatever the forecast holds, and the query ends on the banner. */
  lemma UnauthorizedWins(keyPresent: bool, cur: CurrentBody, fc: ForecastBody, other: ForecastBody)
    requires NormaliseCode(cur.cod) == Num(Unauthorized)
    ensures Route(keyPresent, Responses(cur, fc)) == Route(keyPresent, Responses(cur, other))
    ensures Route(keyPresent, Responses(cur, fc)).KeyBanner?
    ensures forall e :: e in Settle(keyPresent, Responses(cur, fc)) ==>
      e.ShowKeyError?
  {
    SettleOn401(keyPresent, cur, fc);
  }

  /** On a 401 the banner is written by the `then` callback and again by the
      catch handler, with the configuration message when there is no key. */
  lemma SettleOn401(keyPresent: bool, cur: CurrentBody, fc: ForecastBody)
    requires NormaliseCode(cur.cod) == Num(Unauthorized)
    ensures Settle(keyPresent, Responses(cur, fc)) ==
      [ShowKeyError(UnauthorizedMessage), ShowKeyError(if keyPresent then UnauthorizedMessage else NoKeyMessage)]
  {
    assert Thrown(cur) == Some(UnauthorizedMessage);
    CatchOf401(keyPresent);
  }

  /** The catch handler recognises the 401 message as a key problem. */
  lemma CatchOf401(keyPresent: bool)
    ensures Catch(keyPresent, UnauthorizedMessage) ==
      [ShowKeyError(if keyPresent then UnauthorizedMessage else NoKeyMessage)]
  {
    UnauthorizedMessageIsKeyProblem();
  }

  /** Without a key the 401 message written first is overwritten by the
      configuration message in the same banner. */
  lemma MissingKeyOverwrites401(u: Ui, cur: CurrentBody, fc: ForecastBody)
    requires NormaliseCode(cur.cod) == Num(Unauthorized)
    ensures Settle(false, Responses(cur, fc)) == [ShowKeyError(UnauthorizedMessage), ShowKeyError(NoKeyMessage)]
    ensures Run(u, Settle(false, Responses(cur, fc))).banner == Some(Banner(NoKeyMessage))
  {
    SettleRealisesRoute(u, false, Responses(cur, fc));
  }

  /** Any status other than 200 and 401, an unreadable one included, is
      reported with the provider's message, or "City not found" when it sent
      none. */
  lemma OtherStatusIsReported(cur: CurrentBody, fc: ForecastBody)
    requires NormaliseCode(cur.cod) != Num(Ok) && NormaliseCode(cur.cod) != Num(Unauthorized)
    requires !Includes(LowerAscii(cur.message), KeyProblemMarker)
    ensures Route(true, Responses(cur, fc)) ==
      Alerted(AlertPrefix + (if cur.message != [] then cur.message else CityNotFound))
  {
    if cur.message == [] {
      assert !Includes(LowerAscii(CityNotFound), KeyProblemMarker) by {
        assert |LowerAscii(CityNotFound)| < |KeyProblemMarker|;
      }
    }
  }

  /** A missing status code is never a success. */
  lemma MissingCodeIsError(keyPresent: bool, cur: CurrentBody, fc: ForecastBody)
    requires cur.cod == NoCod
    ensures !Route(keyPresent, Responses(cur, fc)).Rendered?
    ensures Thrown(cur) == Some(if cur.message != [] then cur.message else CityNotFound)
  {
  }

  /** A transport failure is never rendered; with a key, a message that is not
      about the key becomes an alert, and an empty one the default text. */
  lemma TransportFailureIsReported(keyPresent: bool, message: string)
    ensures !Route(keyPresent, TransportFailure(message)).Rendered?
    ensures keyPresent && message == [] ==>
      Route(keyPresent, TransportFailure(message)) == Alerted(AlertPrefix + FetchFailedDefault)
  {
  }
}

=== FILE: render.dfy ===
/** What `displayWeather`, `displayHourlyForecast` and `updateBackground` put
    on the page, as values: the current-conditions panel, the hourly strip and
    the background gradient. Temperatures arrive already rounded to whole
    degrees Celsius. */
module Render {
  import opened Options
  import opened Text

  /** How many forecast entries the strip shows (about 24 hours at 3-hour steps). */
  const ForecastSlots: nat := 8

  const DegreeSign: char := '\U{00B0}'

  /** A local clock hour, as `Date.prototype.getHours` returns it. */
  type Hour = h: int | 0 <= h < 24

  /** One entry of the provider's forecast list. */
  datatype ForecastEntry = ForecastEntry(hour: Hour, tempC: int, icon: string, description: string)

  /** The current-conditions record. `hourly` is the field the unit toggle reads;
      the current-weather endpoint never sends it. */
  datatype CurrentData = CurrentData(
    city: string,
    tempC: int,
    main: string,
    description: string,
    icon: string,
    hourly: Option<seq<ForecastEntry>>)

  /** `Math.round(c * 9 / 5 + 32)`: the integer nearest to 9c/5 + 32, halves
      rounding up. The fractional part of 9c/5 is a multiple of 1/5, so no
      value lies exactly half-way. */
  function Fahrenheit(c: int): (f: int)
    ensures 10 * f - 5 <= 18 * c + 320 < 10 * f + 5
  {
    (18 * c + 325) / 10
  }

  /** The rounding bracket pins the Fahrenheit value down uniquely. */
  lemma FahrenheitUnique(c: int, f: int)
    requires 10 * f - 5 <= 18 * c + 320 < 10 * f + 5
    ensures f == Fahrenheit(c)
  {
  }

  /** The conversion fixes the familiar landmarks. */
  lemma FahrenheitLandmarks()
    ensures Fahrenheit(0) == 32 && Fahrenheit(100) == 212 && Fahrenheit(-40) == -40
    ensures Fahrenheit(37) == 99
  {
  }

  /** A warmer reading never shows colder. */
  lemma FahrenheitMonotone(c: int, d: int)
    requires c <= d
    ensures Fahrenheit(c) <= Fahrenheit(d)
  {
  }

  function UnitLetter(isCelsius: bool): char {
    if isCelsius then 'C' else 'F'
  }

  /** The number shown for a Celsius reading in the active unit. */
  function Shown(tempC: int, isCelsius: bool): int {
    if isCelsius then tempC else Fahrenheit(tempC)
  }

  /** The temperature text, e.g. "21°C" or "70°F". */
  function TempText(tempC: int, isCelsius: bool): (r: string)
    ensures |r| >= 3 && r[|r| - 2] == DegreeSign && r[|r| - 1] == UnitLetter(isCelsius)
  {
    IntToDecimal(Shown(tempC, isCelsius)) + [DegreeSign, UnitLetter(isCelsius)]
  }

  /** The temperature text is exactly the number shown, written as `toString`
      writes it, followed by the degree sign and the unit letter: nothing
      else stands before or between them. */
  lemma TempTextIsNumeral(tempC: int, isCelsius: bool)
    ensures var r := TempText(tempC, isCelsius);
      && |r| >= 3 && IsNumeral(r[..|r| - 2], Shown(tempC, isCelsius))
      && r[|r| - 2..] == [DegreeSign, UnitLetter(isCelsius)]
  {
    var t := IntToDecimal(Shown(tempC, isCelsius));
    var r := TempText(tempC, isCelsius);
    IntToDecimalIsNumeral(Shown(tempC, isCelsius));
    assert r[..|r| - 2] == t;
  }

  /** Reading the temperature text back with `parseInt` gives the number shown:
      the text carries exactly the rounded value in the active unit. */
  lemma TempTextParsesBack(tempC: int, isCelsius: bool)
    ensures ParseInt(TempText(tempC, isCelsius)) == Num(Shown(tempC, isCelsius))
  {
    ParseIntOfDecimal(Shown(tempC, isCelsius), [DegreeSign, UnitLetter(isCelsius)]);
  }

  /** The last character of a text: the unit letter of the captions here. */
  function Last(s: string): char
    requires s != []
  {
    s[|s| - 1]
  }

  /** The caption of the unit-toggle button. */
  function ToggleLabel(isCelsius: bool): (r: string)
    ensures |r| == 12 && r[10] == DegreeSign && r[11] == UnitLetter(!isCelsius)
  {
    "Switch to " + [DegreeSign, UnitLetter(!isCelsius)]
  }

  /** The button always offers the unit that is not on display, and the two
      units' texts for the same reading differ. */
  lemma LabelNamesOtherUnit(tempC: int, isCelsius: bool)
    ensures Last(ToggleLabel(isCelsius)) != Last(TempText(tempC, isCelsius))
    ensures Last(ToggleLabel(isCelsius)) == Last(TempText(tempC, !isCelsius))
    ensures TempText(tempC, true) != TempText(tempC, false)
  {
    var c := TempText(tempC, true);
    var f := TempText(tempC, false);
    assert Last(c) == 'C' && Last(f) == 'F';
  }

  /** The hour caption, `getHours().toString().padStart(2, "0") + ":00"`. */
  function HourLabel(h: Hour): (r: string)
    ensures |r| == 5 && r[2..] == ":00"
  {
    var digits := NatToDecimal(h);
    assert h >= 10 ==> |NatToDecimal(h / 10)| == 1;
    assert |digits| <= 2;
    PadStart(digits, 2, '0') + ":00"
  }

  /** The caption's two characters are the hour's two decimal digits, the
      first one zero before ten o'clock. */
  lemma HourLabelDigits(h: Hour)
    ensures IsDigit(HourLabel(h)[0]) && IsDigit(HourLabel(h)[1])
    ensures 10 * DigitValue(HourLabel(h)[0]) + DigitValue(HourLabel(h)[1]) == h
    ensures h < 10 <==> HourLabel(h)[0] == '0'
  {
    var digits := NatToDecimal(h);
    assert h < 10 ==> digits == [DigitChar(h)];
    assert h >= 10 ==> NatToDecimal(h / 10) == [DigitChar(h / 10)];
    assert h >= 10 ==> digits == [DigitChar(h / 10), DigitChar(h % 10)];
  }

  /** Distinct hours get distinct captions. */
  lemma HourLabelInjective(h: Hour, k: Hour)
    requires HourLabel(h) == HourLabel(k)
    ensures h == k
  {
    HourLabelDigits(h);
    HourLabelDigits(k);
    assert HourLabel(h)[0] == HourLabel(k)[0] && HourLabel(h)[1] == HourLabel(k)[1];
  }

  /** The current-conditions panel: temperature, toggle button, city, description, icon. */
  datatype Panel = Panel(temperature: string, toggleLabel: string, city: string, description: string, icon: string)

  /** `displayWeather`: the panel for a record in the active unit. */
  function DisplayWeather(d: CurrentData, isCelsius: bool): (p: Panel)
    ensures |p.temperature| >= 3 && p.temperature[|p.temperature| - 1] == UnitLetter(isCelsius)
    ensures |p.toggleLabel| == 12 && p.toggleLabel[11] == UnitLetter(!isCelsius)
    ensures p.city == d.city && p.description == d.description && p.icon == d.icon
  {
    var temperature := TempText(d.tempC, isCelsius);
    var caption := ToggleLabel(isCelsius);
    Panel(temperature, caption, d.city, d.description, d.icon)
  }

  /** One cell of the hourly strip. */
  datatype StripItem = StripItem(hourLabel: string, icon: string, description: string, temperature: string)

  function ItemOf(e: ForecastEntry, isCelsius: bool): StripItem {
    StripItem(HourLabel(e.hour), e.icon, e.description, TempText(e.tempC, isCelsius))
  }

  /** Every entry rendered, one cell each, in order. */
  function Items(es: seq<ForecastEntry>, isCelsius: bool): (r: seq<StripItem>)
    ensures |r| == |es|
    ensures forall i :: 0 <= i < |es| ==> r[i] == ItemOf(es[i], isCelsius)
  {
    if es == [] then [] else [ItemOf(es[0], isCelsius)] + Items(es[1..], isCelsius)
  }

  function Min(a: int, b: int): int {
    if a <= b then a else b
  }

  /** `displayHourlyForecast`: the strip rebuilt from scratch out of the first
      eight entries. */
  function Strip(es: seq<ForecastEntry>, isCelsius: bool): (r: seq<StripItem>)
    ensures |r| == Min(|es|, ForecastSlots)
    ensures forall i :: 0 <= i < |r| ==> r[i] == ItemOf(es[i], isCelsius)
  {
    Items(es[..Min(|es|, ForecastSlots)], isCelsius)
  }

  /** Rendering one more entry appends one more cell. */
  lemma {:induction false} ItemsAppend(es: seq<ForecastEntry>, e: ForecastEntry, isCelsius: bool)
    ensures Items(es + [e], isCelsius) == Items(es, isCelsius) + [ItemOf(e, isCelsius)]
    decreases |es|
  {
    if es == [] {
      assert [e][1..] == [];
    } else {
      assert (es + [e])[1..] == es[1..] + [e];
      ItemsAppend(es[1..], e, isCelsius);
    }
  }

  /** The cells of a prefix one entry longer. */
  lemma ItemsOfLongerPrefix(es: seq<ForecastEntry>, i: nat, isCelsius: bool)
    requires i < |es|
    ensures Items(es[..i + 1], isCelsius) == Items(es[..i], isCelsius) + [ItemOf(es[i], isCelsius)]
  {
    assert es[..i + 1] == es[..i] + [es[i]];
    ItemsAppend(es[..i], es[i], isCelsius);
  }

  /** The strip as the source builds it: clear, then append one cell per entry
      of the first eight. */
  method BuildStrip(es: seq<ForecastEntry>, isCelsius: bool) returns (strip: seq<StripItem>)
    ensures strip == Strip(es, isCelsius)
    ensures |strip| == Min(|es|, ForecastSlots)
    ensures forall i :: 0 <= i < |strip| ==> strip[i] == ItemOf(es[i], isCelsius)
  {
    var n := Min(|es|, ForecastSlots);
    strip := [];
    var i := 0;
    while i < n
      invariant 0 <= i <= n
      invariant strip == Items(es[..i], isCelsius)
    {
      ItemsOfLongerPrefix(es, i, isCelsius);
      strip := strip + [ItemOf(es[i], isCelsius)];
      i := i + 1;
    }
  }

  /** An entry list shorter than eight is shown whole; a longer one is cut to
      its first eight, whatever follows them. */
  lemma StripKeepsFirstEight(es: seq<ForecastEntry>, more: seq<ForecastEntry>, isCelsius: bool)
    requires |es| >= ForecastSlots
    ensures Strip(es + more, isCelsius) == Strip(es, isCelsius)
    ensures Strip(es[..ForecastSlots], isCelsius) == Strip(es, isCelsius)
  {
    assert (es + more)[..ForecastSlots] == es[..ForecastSlots];
    assert es[..ForecastSlots][..ForecastSlots] == es[..ForecastSlots];
  }

  /** The background gradients. */
  datatype Gradient = ClearSky | Cloudy | Rainy | Snowy | Stormy | DefaultSky {
    function Css(): string {
      match this
      case ClearSky => "linear-gradient(135deg, #f8cdda, #1d2b64)"
      case Cloudy => "linear-gradient(135deg, #bdc3c7, #2c3e50)"
      case Rainy => "linear-gradient(135deg, #000046, #1cb5e0)"
      case Snowy => "linear-gradient(135deg, #83a4d4, #b6fbff)"
      case Stormy => "linear-gradient(135deg, #232526, #414345)"
      case DefaultSky => "linear-gradient(135deg, #1e3c72, #2a5298)"
    }
  }

  /** `updateBackground`: the gradient for a condition keyword, matched
      without regard to case. */
  function Background(main: string): (g: Gradient)
    ensures g == ClearSky <==> LowerAscii(main) == "clear"
    ensures g == Cloudy <==> LowerAscii(main) == "clouds"
    ensures g == Rainy <==> LowerAscii(main) == "rain"
    ensures g == Snowy <==> LowerAscii(main) == "snow"
    ensures g == Stormy <==> LowerAscii(main) == "thunderstorm"
  {
    match LowerAscii(main)
    case "clear" => ClearSky
    case "clouds" => Cloudy
    case "rain" => Rainy
    case "snow" => Snowy
    case "thunderstorm" => Stormy
    case _ => DefaultSky
  }

  /** Keywords that differ only in letter case pick the same gradient. */
  lemma BackgroundIgnoresCase(a: string, b: string)
    requires SameUpToCase(a, b)
    ensures Background(a) == Background(b)
  {
    LowerAsciiEqualIff(a, b);
  }

  /** Any keyword outside the five falls back to the default, e.g. "Tornado";
      "Rain" and "rain" agree. */
  lemma BackgroundExamples()
    ensures Background("Rain") == Background("rain") == Rainy
    ensures Background("Tornado") == DefaultSky
    ensures Background("THUNDERSTORM") == Stormy
  {
    assert LowerAscii("Rain") == "rain";
    assert LowerAscii("THUNDERSTORM") == "thunderstorm";
  }

  /** The six gradients are six different style strings. */
  lemma GradientsDistinct(g: Gradient, h: Gradient)
    requires g != h
    ensures g.Css() != h.Css()
  {
    assert g.Css()[25] != h.Css()[25];
  }
}

=== FILE: session.dfy ===
/** The page state one browser session accumulates: the unit flag, the two
    create-once elements (loading indicator and key-error banner), and what
    the renderer last drew. Every handler of the widget is a step function
    over this record. */
module Session {
  import opened Options
  import opened Text
  import opened Render

  /** The loading indicator; once created it is only shown or hidden. */
  datatype Loader = Loader(visible: bool)

  /** The key-error banner; its text is the warning sign, `message` and a fixed
      link to the provider's FAQ. */
  datatype Banner = Banner(message: string)

  datatype Ui = Ui(
    isCelsius: bool,
    loader: Option<Loader>,
    banner: Option<Banner>,
    panel: Option<Panel>,
    /** The record the toggle button's click handler was bound to. */
    toggleTarget: Option<CurrentData>,
    strip: seq<StripItem>,
    /** The entries the strip was last drawn from. */
    stripSource: seq<ForecastEntry>,
    background: Option<Gradient>)

  /** A fresh page: Celsius, neither singleton created, nothing drawn. */
  const PageLoad: Ui := Ui(true, None, None, None, None, [], [], None)

  datatype Endpoint = CurrentWeather | Forecast

  /** The observable effects a query can have, in the order they happen. */
  datatype Effect =
    | SetLoader(show: bool)
    | Fetch(endpoint: Endpoint, city: string)
    | Alert(text: string)
    | ShowKeyError(message: string)
    | ShowWeather(data: CurrentData)
    | ShowForecast(entries: seq<ForecastEntry>)
    | SetBackground(main: string)

  /** `showLoading`: create the indicator if it is missing, then show or hide it. */
  function ShowLoading(u: Ui, show: bool): (v: Ui)
    ensures v.loader == Some(Loader(show))
    ensures v.(loader := u.loader) == u
  {
    u.(loader := Some(Loader(show)))
  }

  /** `showApiKeyError`: create the banner if it is missing, then overwrite its text. */
  function ShowApiKeyError(u: Ui, message: string): (v: Ui)
    ensures v.banner == Some(Banner(message))
    ensures v.(banner := u.banner) == u
  {
    u.(banner := Some(Banner(message)))
  }

  /** `displayWeather` on the page: redraw the panel in the active unit and bind
      the new toggle button to `d`. */
  function ShowCurrent(u: Ui, d: CurrentData): (v: Ui)
    ensures v.panel.Some? && v.panel.value.city == d.city
    ensures v.panel.value.temperature == TempText(d.tempC, u.isCelsius)
    ensures v.toggleTarget == Some(d)
    ensures v.(panel := u.panel, toggleTarget := u.toggleTarget) == u
  {
    u.(panel := Some(DisplayWeather(d, u.isCelsius)), toggleTarget := Some(d))
  }

  /** `displayHourlyForecast` on the page: the old strip is discarded, not
      appended to. */
  function ShowHourly(u: Ui, es: seq<ForecastEntry>): (v: Ui)
    ensures |v.strip| == Min(|es|, ForecastSlots)
    ensures forall i :: 0 <= i < |v.strip| ==> v.strip[i] == ItemOf(es[i], u.isCelsius)
    ensures v.(strip := u.strip, stripSource := u.stripSource) == u
  {
    u.(strip := Strip(es, u.isCelsius), stripSource := es)
  }

  function SetBackgroundOf(u: Ui, main: string): (v: Ui)
    ensures v.background == Some(Background(main))
    ensures v.(background := u.background) == u
  {
    u.(background := Some(Background(main)))
  }

  /** One effect applied to the page. Requests and alerts leave no trace in it. */
  function Step(u: Ui, e: Effect): Ui {
    match e
    case SetLoader(show) => ShowLoading(u, show)
    case Fetch(_, _) => u
    case Alert(_) => u
    case ShowKeyError(m) => ShowApiKeyError(u, m)
    case ShowWeather(d) => ShowCurrent(u, d)
    case ShowForecast(es) => ShowHourly(u, es)
    case SetBackground(m) => SetBackgroundOf(u, m)
  }

  /** `Step` case by case, for proofs that would otherwise unfold every case. */
  lemma StepByEffect(u: Ui, e: Effect)
    ensures e.SetLoader? ==> Step(u, e) == ShowLoading(u, e.show)
    ensures e.Fetch? || e.Alert? ==> Step(u, e) == u
    ensures e.ShowKeyError? ==> Step(u, e) == ShowApiKeyError(u, e.message)
    ensures e.ShowWeather? ==> Step(u, e) == ShowCurrent(u, e.data)
    ensures e.ShowForecast? ==> Step(u, e) == ShowHourly(u, e.entries)
    ensures e.SetBackground? ==> Step(u, e) == SetBackgroundOf(u, e.main)
  {
  }

  /** A sequence of effects applied in order. */
  function Run(u: Ui, es: seq<Effect>): Ui
    decreases |es|
  {
    if es == [] then u else Run(Step(u, es[0]), es[1..])
  }

  /** Running two effect sequences back to back is running their concatenation. */
  lemma {:induction false} RunAppend(u: Ui, a: seq<Effect>, b: seq<Effect>)
    ensures Run(u, a + b) == Run(Run(u, a), b)
    decreases |a|
  {
    if a == [] {
      assert a + b == b;
    } else {
      assert (a + b)[1..] == a[1..] + b;
      RunAppend(Step(u, a[0]), a[1..], b);
    }
  }

  /** The texts of the alerts a sequence of effects raises, in order. An
      alert leaves nothing on the page, so `Run` cannot see it; this can. */
  function Alerts(es: seq<Effect>): seq<string>
    decreases |es|
  {
    if es == [] then [] else (if es[0].Alert? then [es[0].text] else []) + Alerts(es[1..])
  }

  /** The alerts of one effect. */
  lemma AlertsOne(e: Effect)
    ensures Alerts([e]) == if e.Alert? then [e.text] else []
  {
    assert [e][1..] == [];
  }

  /** The alerts of two sequences run back to back are the first's, then the
      second's. */
  lemma {:induction false} AlertsAppend(a: seq<Effect>, b: seq<Effect>)
    ensures Alerts(a + b) == Alerts(a) + Alerts(b)
    decreases |a|
  {
    if a == [] {
      assert a + b == b;
    } else {
      assert (a + b)[1..] == a[1..] + b;
      AlertsAppend(a[1..], b);
    }
  }

  predicate LoaderFree(es: seq<Effect>) {
    forall i :: 0 <= i < |es| ==> !es[i].SetLoader?
  }

  /** Effects other than `SetLoader` never touch the loading indicator. */
  lemma {:induction false} RunKeepsLoader(u: Ui, es: seq<Effect>)
    requires LoaderFree(es)
    ensures Run(u, es).loader == u.loader
    decreases |es|
  {
    if es != [] {
      assert LoaderFree(es[1..]) by {
        forall i | 0 <= i < |es| - 1 ensures !es[1..][i].SetLoader? {
          assert es[1..][i] == es[i + 1];
        }
      }
      RunKeepsLoader(Step(u, es[0]), es[1..]);
    }
  }

  lemma LoaderFreePrefix(es: seq<Effect>, n: nat)
    requires LoaderFree(es) && n <= |es|
    ensures LoaderFree(es[..n])
  {
    assert forall i :: 0 <= i < n ==> es[..n][i] == es[i];
  }

  /** Effects bracketed by showing and hiding the indicator keep it visible
      after every effect but the last, and leave it hidden at the end. */
  lemma Bracketed(u: Ui, middle: seq<Effect>)
    requires LoaderFree(middle)
    ensures var t := [SetLoader(true)] + middle + [SetLoader(false)];
      && (forall k :: 1 <= k < |t| ==> Run(u, t[..k]).loader == Some(Loader(true)))
      && Run(u, t).loader == Some(Loader(false))
  {
    var t := [SetLoader(true)] + middle + [SetLoader(false)];
    var shown := ShowLoading(u, true);
    forall k | 1 <= k < |t| ensures Run(u, t[..k]).loader == Some(Loader(true)) {
      assert t[..k][1..] == middle[..k - 1];
      LoaderFreePrefix(middle, k - 1);
      RunKeepsLoader(shown, middle[..k - 1]);
    }
    assert t[1..] == middle + [SetLoader(false)];
    RunAppend(shown, middle, [SetLoader(false)]);
    RunKeepsLoader(shown, middle);
  }

  /** One effect run alone is one step. */
  lemma RunOne(u: Ui, e: Effect)
    ensures Run(u, [e]) == Step(u, e)
  {
    assert [e][1..] == [];
  }

  /** Three effects run in order are three steps. */
  lemma RunThree(u: Ui, a: Effect, b: Effect, c: Effect)
    ensures Run(u, [a, b, c]) == Step(Step(Step(u, a), b), c)
  {
    assert [a, b, c][1..] == [b, c];
    assert [b, c][1..] == [c];
    RunOne(Step(Step(u, a), b), c);
  }

  /** Showing the banner twice leaves one banner holding the second message. */
  lemma BannerIsReused(u: Ui, first: string, second: string)
    ensures ShowApiKeyError(ShowApiKeyError(u, first), second) == ShowApiKeyError(u, second)
    ensures ShowApiKeyError(u, first).banner.Some?
  {
  }

  /** The indicator is created at most once; the last call decides whether it shows. */
  lemma LoaderIsReused(u: Ui, first: bool, second: bool)
    ensures ShowLoading(ShowLoading(u, first), second) == ShowLoading(u, second)
  {
  }

  /** Rendering the strip twice leaves only the second rendering: cells never
      pile up across calls. */
  lemma HourlyDoesNotAccumulate(u: Ui, a: seq<ForecastEntry>, b: seq<ForecastEntry>)
    ensures ShowHourly(ShowHourly(u, a), b) == ShowHourly(u, b)
    ensures |ShowHourly(ShowHourly(u, a), b).strip| <= ForecastSlots
  {
  }

  /** `data.hourly || []`. */
  function HourlyOrEmpty(d: CurrentData): seq<ForecastEntry> {
    d.hourly.GetOr([])
  }

  /** `toggleTemp(data)`: flip the unit, redraw the panel from `data` and the
      strip from `data.hourly`, which a current-weather record does not have. */
  function ToggleTemp(u: Ui, d: CurrentData): (v: Ui)
    ensures v.isCelsius == !u.isCelsius
    ensures v.panel == Some(DisplayWeather(d, !u.isCelsius)) && v.toggleTarget == Some(d)
    ensures d.hourly.None? ==> v.strip == []
    ensures v.stripSource == HourlyOrEmpty(d)
    ensures |v.strip| == Min(|HourlyOrEmpty(d)|, ForecastSlots)
    ensures forall i :: 0 <= i < |v.strip| ==> v.strip[i] == ItemOf(HourlyOrEmpty(d)[i], !u.isCelsius)
    ensures v.loader == u.loader && v.banner == u.banner && v.background == u.background
  {
    var flipped := u.(isCelsius := !u.isCelsius);
    ShowHourly(ShowCurrent(flipped, d), HourlyOrEmpty(d))
  }

  /** A click on the toggle button, which exists only once a panel was drawn. */
  function ClickToggle(u: Ui): (v: Ui)
    ensures u.toggleTarget.None? ==> v == u
    ensures u.toggleTarget.Some? ==> v.isCelsius == !u.isCelsius && v.toggleTarget == u.toggleTarget
    ensures u.toggleTarget.Some? ==>
      && v.panel == Some(DisplayWeather(u.toggleTarget.value, v.isCelsius))
      && v.strip == Strip(HourlyOrEmpty(u.toggleTarget.value), v.isCelsius)
  {
    match u.toggleTarget
    case None => u
    case Some(d) => ToggleTemp(u, d)
  }

  /** Toggling twice restores the unit flag and the panel exactly (the
      rounding is redone from the stored Celsius value, so nothing drifts);
      only the strip differs, now drawn from `data.hourly`. */
  lemma ToggleTwiceRestores(u: Ui, d: CurrentData)
    requires u.panel == Some(DisplayWeather(d, u.isCelsius)) && u.toggleTarget == Some(d)
    ensures ToggleTemp(ToggleTemp(u, d), d)
      == u.(strip := Strip(HourlyOrEmpty(d), u.isCelsius), stripSource := HourlyOrEmpty(d))
    ensures d.hourly.None? ==> ToggleTemp(ToggleTemp(u, d), d) == u.(strip := [], stripSource := [])
  {
  }

  /** The same through the button: two clicks give back the page, except that
      the strip is emptied when the bound record has no `hourly` field. */
  lemma ClickTwiceRestores(u: Ui)
    requires u.toggleTarget.Some?
    requires u.panel == Some(DisplayWeather(u.toggleTarget.value, u.isCelsius))
    requires u.toggleTarget.value.hourly.None?
    ensures ClickToggle(ClickToggle(u)) == u.(strip := [], stripSource := [])
  {
    ToggleTwiceRestores(u, u.toggleTarget.value);
  }

  /** As written, a toggle after a query that drew a forecast wipes the strip:
      two toggles do not give the page back. */
  lemma ToggleLosesForecast(u: Ui, d: CurrentData)
    requires d.hourly.None? && u.strip != []
    ensures ToggleTemp(u, d).strip == []
    ensures ToggleTemp(ToggleTemp(u, d), d) != u
  {
    assert ToggleTemp(ToggleTemp(u, d), d).strip != u.strip;
  }

  /** The toggle as evidently intended: the strip is redrawn in the new unit
      from the entries it was last drawn from. */
  function ToggleTempRetained(u: Ui, d: CurrentData): (v: Ui)
    ensures v.isCelsius == !u.isCelsius
    ensures v.panel == Some(DisplayWeather(d, !u.isCelsius)) && v.toggleTarget == Some(d)
    ensures v.stripSource == u.stripSource
    ensures |v.strip| == Min(|u.stripSource|, ForecastSlots)
    ensures forall i :: 0 <= i < |v.strip| ==> v.strip[i] == ItemOf(u.stripSource[i], !u.isCelsius)
    ensures v.loader == u.loader && v.banner == u.banner && v.background == u.background
  {
    var flipped := u.(isCelsius := !u.isCelsius);
    ShowHourly(ShowCurrent(flipped, d), u.stripSource)
  }

  /** A page whose panel and strip are both drawn in the active unit. */
  predicate DrawnConsistently(u: Ui, d: CurrentData) {
    && u.panel == Some(DisplayWeather(d, u.isCelsius))
    && u.toggleTarget == Some(d)
    && u.strip == Strip(u.stripSource, u.isCelsius)
  }

  /** With the corrected toggle, the strip keeps its length and toggling twice
      gives back exactly the page it started from. */
  lemma RetainedToggleTwiceRestores(u: Ui, d: CurrentData)
    requires DrawnConsistently(u, d)
    ensures DrawnConsistently(ToggleTempRetained(u, d), d)
    ensures |ToggleTempRetained(u, d).strip| == |u.strip|
    ensures ToggleTempRetained(ToggleTempRetained(u, d), d) == u
  {
  }

  /** A click on the toggle button under the corrected toggle. */
  function ClickToggleRetained(u: Ui): (v: Ui)
    ensures u.toggleTarget.None? ==> v == u
    ensures u.toggleTarget.Some? ==> v.isCelsius == !u.isCelsius && v.stripSource == u.stripSource
    ensures u.toggleTarget.Some? ==>
      && v.panel == Some(DisplayWeather(u.toggleTarget.value, v.isCelsius))
      && v.strip == Strip(u.stripSource, v.isCelsius)
  {
    match u.toggleTarget
    case None => u
    case Some(d) => ToggleTempRetained(u, d)
  }
}

=== FILE: text.dfy ===
/** The string operations the widget relies on, as JavaScript defines them:
    `trim`, ASCII `toLowerCase`, `includes`, `padStart`, integer-to-string and
    `parseInt(s, 10)`. */
module Text {

  /** The characters `String.prototype.trim` and `parseInt` skip: the
      WhiteSpace and LineTerminator productions of ECMA-262 (TAB, VT, FF,
      ZWNBSP, every space separator, LF, CR, LS and PS). */
  predicate IsJsSpace(c: char) {
    || c == '\t' || c == '\n' || c == '\U{000B}' || c == '\U{000C}' || c == '\r'
    || c == ' ' || c == '\U{00A0}' || c == '\U{1680}'
    || ('\U{2000}' <= c <= '\U{200A}')
    || c == '\U{2028}' || c == '\U{2029}' || c == '\U{202F}' || c == '\U{205F}'
    || c == '\U{3000}' || c == '\U{FEFF}'
  }

  predicate IsBlank(s: string) {
    forall i :: 0 <= i < |s| ==> IsJsSpace(s[i])
  }

  /** Drops leading white space: what `parseInt` does before reading a sign. */
  function TrimStart(s: string): (r: string)
    ensures |r| <= |s| && r == s[|s| - |r|..]
    ensures IsBlank(s[..|s| - |r|])
    ensures r == [] || !IsJsSpace(r[0])
  {
    if |s| > 0 && IsJsSpace(s[0]) then
      var r := TrimStart(s[1..]);
      assert s[..|s| - |r|] == [s[0]] + s[1..][..|s| - 1 - |r|];
      r
    else s
  }

  /** Drops trailing white space. */
  function TrimEnd(s: string): (r: string)
    ensures |r| <= |s| && r == s[..|r|]
    ensures IsBlank(s[|r|..])
    ensures r == [] || !IsJsSpace(r[|r| - 1])
  {
    if |s| > 0 && IsJsSpace(s[|s| - 1]) then
      var r := TrimEnd(s[..|s| - 1]);
      assert s[|r|..] == s[..|s| - 1][|r|..] + [s[|s| - 1]];
      r
    else s
  }

  /** `String.prototype.trim`. */
  function Trim(s: string): (r: string)
    ensures |r| <= |s|
    ensures r == [] || (!IsJsSpace(r[0]) && !IsJsSpace(r[|r| - 1]))
    ensures exists i, j :: 0 <= i <= j <= |s| && r == s[i..j] && IsBlank(s[..i]) && IsBlank(s[j..])
  {
    var t := TrimStart(s);
    BlankAround(s, t, TrimEnd(t));
    TrimEnd(t)
  }

  /** Dropping a blank prefix and then a blank suffix leaves a middle slice
      with blank text on either side. */
  lemma BlankAround(s: string, t: string, r: string)
    requires |t| <= |s| && t == s[|s| - |t|..] && IsBlank(s[..|s| - |t|])
    requires |r| <= |t| && r == t[..|r|] && IsBlank(t[|r|..])
    ensures exists i, j :: 0 <= i <= j <= |s| && r == s[i..j] && IsBlank(s[..i]) && IsBlank(s[j..])
  {
    var i := |s| - |t|;
    assert s[i + |r|..] == t[|r|..];
    assert r == s[i..i + |r|] && IsBlank(s[..i]) && IsBlank(s[i + |r|..]);
  }

  /** A string trims to nothing exactly when every character is white space. */
  lemma TrimEmptyIffBlank(s: string)
    ensures Trim(s) == [] <==> IsBlank(s)
  {
    var t := TrimStart(s);
    if Trim(s) == [] {
      assert t[0..] == t;
      assert t == [];
      assert s[..|s|] == s;
    } else {
      var r := Trim(s);
      assert r[0] in s;
    }
  }

  /** Trimming twice is trimming once. */
  lemma TrimIdempotent(s: string)
    ensures Trim(Trim(s)) == Trim(s)
  {
    var r := Trim(s);
    assert TrimStart(r) == r;
    assert TrimEnd(r) == r;
  }

  /** Trimming does not touch a string that neither starts nor ends with
      white space. */
  lemma TrimKeepsInner(s: string)
    requires s != [] && !IsJsSpace(s[0]) && !IsJsSpace(s[|s| - 1])
    ensures Trim(s) == s
  {
  }

  /** ASCII `toLowerCase` of one character. */
  function LowerChar(c: char): char {
    if 'A' <= c <= 'Z' then (c as int + 32) as char else c
  }

  function LowerAscii(s: string): (r: string)
    ensures |r| == |s|
    ensures forall i :: 0 <= i < |s| ==>
      if 'A' <= s[i] <= 'Z' then r[i] as int == s[i] as int + 32 else r[i] == s[i]
  {
    seq(|s|, i requires 0 <= i < |s| => LowerChar(s[i]))
  }

  /** Two characters that are equal, or an upper-case ASCII letter and its
      lower-case partner. */
  predicate CaseMates(c: char, d: char) {
    || c == d
    || ('A' <= c <= 'Z' && d as int == c as int + 32)
    || ('A' <= d <= 'Z' && c as int == d as int + 32)
  }

  /** Two strings that differ at most in the letter case of ASCII letters. */
  predicate SameUpToCase(a: string, b: string) {
    |a| == |b| && forall i :: 0 <= i < |a| ==> CaseMates(a[i], b[i])
  }

  lemma LowerCharEqualIff(c: char, d: char)
    ensures LowerChar(c) == LowerChar(d) <==> CaseMates(c, d)
  {
  }

  /** Lower-casing makes two strings equal exactly when they differ only in
      the case of ASCII letters. */
  lemma LowerAsciiEqualIff(a: string, b: string)
    ensures LowerAscii(a) == LowerAscii(b) <==> SameUpToCase(a, b)
  {
    if LowerAscii(a) == LowerAscii(b) {
      forall i | 0 <= i < |a| ensures CaseMates(a[i], b[i]) {
        assert LowerAscii(a)[i] == LowerAscii(b)[i];
        LowerCharEqualIff(a[i], b[i]);
      }
    }
    if SameUpToCase(a, b) {
      forall i | 0 <= i < |a| ensures LowerAscii(a)[i] == LowerAscii(b)[i] {
        LowerCharEqualIff(a[i], b[i]);
      }
    }
  }

  /** Lower-casing leaves no upper-case ASCII letter and is idempotent. */
  lemma LowerAsciiIdempotent(s: string)
    ensures forall i :: 0 <= i < |s| ==> !('A' <= LowerAscii(s)[i] <= 'Z')
    ensures LowerAscii(LowerAscii(s)) == LowerAscii(s)
  {
  }

  /** `sub` occurs in `s` at position `i`. */
  predicate OccursAt(s: string, sub: string, i: int) {
    0 <= i && i + |sub| <= |s| && s[i..i + |sub|] == sub
  }

  /** `String.prototype.includes`: is there a position where `sub` occurs? */
  function Includes(s: string, sub: string): (b: bool)
    ensures b <==> exists i :: OccursAt(s, sub, i)
    decreases |s|
  {
    if |s| < |sub| then false
    else if s[..|sub|] == sub then (assert OccursAt(s, sub, 0); true)
    else (
      var b := Includes(s[1..], sub);
      assert forall i :: OccursAt(s[1..], sub, i) <==> OccursAt(s, sub, i + 1) by {
        forall i ensures OccursAt(s[1..], sub, i) <==> OccursAt(s, sub, i + 1) {
          if 0 <= i && i + |sub| <= |s| - 1 {
            assert s[1..][i..i + |sub|] == s[i + 1..i + 1 + |sub|];
          }
        }
      }
      assert !OccursAt(s, sub, 0);
      assert (exists i :: OccursAt(s, sub, i)) ==> exists i :: OccursAt(s[1..], sub, i) by {
        if exists i :: OccursAt(s, sub, i) {
          var i :| OccursAt(s, sub, i);
          assert i != 0;
          assert OccursAt(s[1..], sub, i - 1);
        }
      }
      b)
  }

  predicate IsDigit(c: char) {
    '0' <= c <= '9'
  }

  predicate AllDigits(s: string) {
    forall i :: 0 <= i < |s| ==> IsDigit(s[i])
  }

  function DigitValue(c: char): nat
    requires IsDigit(c)
  {
    c as int - '0' as int
  }

  function DigitChar(d: nat): (c: char)
    requires d < 10
    ensures IsDigit(c) && DigitValue(c) == d
  {
    ('0' as int + d) as char
  }

  /** The value of a run of decimal digits, most significant first. */
  function DecimalValue(ds: string): nat
    requires AllDigits(ds)
  {
    if ds == [] then 0 else 10 * DecimalValue(ds[..|ds| - 1]) + DigitValue(ds[|ds| - 1])
  }

  /** A run of decimal digits as `toString` writes it: not empty, and with
      no leading zero unless the run is "0" itself. */
  predicate IsCanonicalDigits(ds: string) {
    ds != [] && AllDigits(ds) && (ds[0] == '0' ==> |ds| == 1)
  }

  /** `t` is the decimal text of `n`: a minus sign exactly when `n` is
      negative, then canonical digits whose value is the magnitude of `n`. */
  predicate IsNumeral(t: string, n: int) {
    && t != []
    && (t[0] == '-' <==> n < 0)
    && var ds := if n < 0 then t[1..] else t;
       IsCanonicalDigits(ds) && DecimalValue(ds) == if n < 0 then -n else n
  }

  /** `Number.prototype.toString` on a non-negative integer: decimal digits
      without leading zeros. */
  function NatToDecimal(n: nat): (r: string)
    ensures |r| >= 1 && AllDigits(r)
    ensures r[0] == '0' ==> n == 0
    ensures IsCanonicalDigits(r)
    decreases n
  {
    if n < 10 then [DigitChar(n)] else NatToDecimal(n / 10) + [DigitChar(n % 10)]
  }

  /** Reading back the digits printed for `n` gives `n`. */
  lemma {:induction false} DecimalRoundTrip(n: nat)
    ensures DecimalValue(NatToDecimal(n)) == n
    decreases n
  {
    if n >= 10 {
      var r := NatToDecimal(n);
      assert r[..|r| - 1] == NatToDecimal(n / 10);
      DecimalRoundTrip(n / 10);
    }
  }

  /** `Number.prototype.toString` on an integer. */
  function IntToDecimal(n: int): (r: string)
    ensures |r| >= 1 && (IsDigit(r[0]) || r[0] == '-')
    ensures r[0] == '-' <==> n < 0
    ensures n >= 0 ==> AllDigits(r)
  {
    if n < 0 then "-" + NatToDecimal(-n) else NatToDecimal(n)
  }

  /** The text of an integer is its canonical numeral: a minus sign exactly
      for a negative number, then digits without a leading zero whose value
      is the magnitude. */
  lemma IntToDecimalIsNumeral(n: int)
    ensures IsNumeral(IntToDecimal(n), n)
  {
    if n < 0 {
      var ds := NatToDecimal(-n);
      DecimalRoundTrip(-n);
      assert ("-" + ds)[1..] == ds;
    } else {
      DecimalRoundTrip(n);
    }
  }

  /** The longest prefix of `s` made of decimal digits. */
  function DigitRun(s: string): (r: string)
    ensures |r| <= |s| && r == s[..|r|] && AllDigits(r)
    ensures |r| == |s| || !IsDigit(s[|r|])
  {
    if |s| > 0 && IsDigit(s[0]) then [s[0]] + DigitRun(s[1..]) else []
  }

  /** The digit run of a digit string followed by a non-digit is that string. */
  lemma {:induction false} DigitRunOfDigits(ds: string, rest: string)
    requires AllDigits(ds)
    requires rest == [] || !IsDigit(rest[0])
    ensures DigitRun(ds + rest) == ds
    decreases |ds|
  {
    if ds == [] {
      assert ds + rest == rest;
    } else {
      assert (ds + rest)[1..] == ds[1..] + rest;
      DigitRunOfDigits(ds[1..], rest);
    }
  }

  /** The result of `parseInt`: a number or `NaN`. */
  datatype Parsed = Num(value: int) | NaN {
    function Negate(): Parsed {
      match this
      case Num(v) => Num(-v)
      case NaN => NaN
    }
  }

  /** The leading digit run read as a number, `NaN` when there is none. */
  function ParseDigits(u: string): Parsed {
    var ds := DigitRun(u);
    if ds == [] then NaN else Num(DecimalValue(ds))
  }

  /** An optional sign followed by digits. */
  function ParseSigned(t: string): Parsed {
    if |t| > 0 && t[0] == '-' then ParseDigits(t[1..]).Negate()
    else if |t| > 0 && t[0] == '+' then ParseDigits(t[1..])
    else ParseDigits(t)
  }

  /** `parseInt(s, 10)`: skip leading white space, take an optional sign, then
      the longest run of decimal digits; no digits at all gives `NaN`. (A
      negative zero prints and compares like zero here.) */
  function ParseInt(s: string): (r: Parsed)
    ensures s != [] && IsDigit(s[0]) ==> r.Num?
  {
    ParseSigned(TrimStart(s))
  }

  /** A string with no digit in it parses to `NaN`. */
  lemma ParseIntWithoutDigits(s: string)
    requires forall i :: 0 <= i < |s| ==> !IsDigit(s[i])
    ensures ParseInt(s) == NaN
  {
    var t := TrimStart(s);
    if |t| > 0 {
      assert t[0] == s[|s| - |t|];
      assert DigitRun(t) == [];
      if |t| > 1 {
        assert t[1..][0] == s[|s| - |t| + 1];
      }
      assert DigitRun(t[1..]) == [];
    }
  }

  /** Digits printed for `m`, then a non-digit, read back as `m`. */
  lemma ParseDigitsOfDecimal(m: nat, rest: string)
    requires rest == [] || !IsDigit(rest[0])
    ensures ParseDigits(NatToDecimal(m) + rest) == Num(m)
  {
    DigitRunOfDigits(NatToDecimal(m), rest);
    DecimalRoundTrip(m);
  }

  /** Parsing a string that does not start with white space skips nothing. */
  lemma ParseIntUntrimmed(s: string)
    requires s != [] && !IsJsSpace(s[0])
    ensures ParseInt(s) == ParseSigned(s)
  {
  }

  /** Printing an integer and parsing it back, whatever non-digit text follows
      the digits, gives the integer. */
  lemma ParseIntOfDecimal(n: int, rest: string)
    requires rest == [] || !IsDigit(rest[0])
    ensures ParseInt(IntToDecimal(n) + rest) == Num(n)
  {
    if n < 0 {
      ParseIntOfNegative(n, rest);
    } else {
      ParseIntOfNatural(n, rest);
    }
  }

  lemma ParseIntOfNatural(n: int, rest: string)
    requires n >= 0
    requires rest == [] || !IsDigit(rest[0])
    ensures ParseInt(IntToDecimal(n) + rest) == Num(n)
  {
    var u := NatToDecimal(n) + rest;
    assert IntToDecimal(n) + rest == u;
    assert u[0] == NatToDecimal(n)[0];
    ParseIntUntrimmed(u);
    ParseDigitsOfDecimal(n, rest);
  }

  lemma ParseIntOfNegative(n: int, rest: string)
    requires n < 0
    requires rest == [] || !IsDigit(rest[0])
    ensures ParseInt(IntToDecimal(n) + rest) == Num(n)
  {
    NegativeDecimal(n, rest);
    ParseMinusDecimal(n, rest);
  }

  /** A negative integer prints as a minus sign before the digits of its
      magnitude. */
  lemma NegativeDecimal(n: int, rest: string)
    requires n < 0
    ensures IntToDecimal(n) + rest == "-" + (NatToDecimal(-n) + rest)
  {
  }

  lemma ParseMinusDecimal(n: int, rest: string)
    requires n < 0
    requires rest == [] || !IsDigit(rest[0])
    ensures ParseInt("-" + (NatToDecimal(-n) + rest)) == Num(n)
  {
    var u := NatToDecimal(-n) + rest;
    assert ("-" + u)[0] == '-' && ("-" + u)[1..] == u;
    ParseIntUntrimmed("-" + u);
    ParseDigitsOfDecimal(-n, rest);
    assert ParseDigits(u) == Num(-n);
  }

  /** What a sign and a digit run denote: `NaN` without digits, otherwise
      the digits' value, negated after a minus sign. */
  function SignedValue(sign: string, ds: string): Parsed
    requires AllDigits(ds)
  {
    if ds == [] then NaN else Num(if sign == "-" then -(DecimalValue(ds) as int) else DecimalValue(ds))
  }

  /** The parts `parseInt` reads a text as: leading white space, at most one
      sign, the longest run of digits after it, and whatever follows. */
  predicate ParseParts(ws: string, sign: string, ds: string, rest: string) {
    && IsBlank(ws)
    && (sign == "" || sign == "+" || sign == "-")
    && AllDigits(ds)
    && (rest == [] || !IsDigit(rest[0]))
    && (sign == [] && ds == [] && rest != [] ==> !IsJsSpace(rest[0]) && rest[0] != '+' && rest[0] != '-')
  }

  /** `TrimStart` drops exactly a blank prefix that stops before a non-blank
      character. */
  lemma {:induction false} TrimStartSkipsBlank(ws: string, t: string)
    requires IsBlank(ws)
    requires t == [] || !IsJsSpace(t[0])
    ensures TrimStart(ws + t) == t
    decreases |ws|
  {
    if ws == [] {
      assert ws + t == t;
    } else {
      assert (ws + t)[0] == ws[0];
      assert (ws + t)[1..] == ws[1..] + t;
      TrimStartSkipsBlank(ws[1..], t);
    }
  }

  /** After the white space: the sign, then the digit run up to a non-digit. */
  lemma ParseSignedOf(sign: string, ds: string, rest: string)
    requires ParseParts([], sign, ds, rest)
    ensures ParseSigned(sign + (ds + rest)) == SignedValue(sign, ds)
  {
    var u := ds + rest;
    DigitRunOfDigits(ds, rest);
    assert ParseDigits(u) == SignedValue("", ds);
    if sign == "-" {
      assert (sign + u)[0] == '-' && (sign + u)[1..] == u;
    } else if sign == "+" {
      assert (sign + u)[0] == '+' && (sign + u)[1..] == u;
    } else {
      assert sign + u == u;
      if u != [] {
        assert u[0] == if ds != [] then ds[0] else rest[0];
      }
    }
  }

  /** `parseInt(s, 10)` in full: a text made of white space, a sign, a digit
      run and a rest that does not continue the run gives `NaN` when the run
      is empty and otherwise the run's value, negated after a minus sign.
      Leading zeros in the run are read as the same number. */
  lemma ParseIntOfParts(ws: string, sign: string, ds: string, rest: string)
    requires ParseParts(ws, sign, ds, rest)
    ensures ParseInt(ws + (sign + (ds + rest))) == SignedValue(sign, ds)
  {
    var t := sign + (ds + rest);
    if t != [] {
      if sign != [] {
        assert t[0] == sign[0];
      } else if ds != [] {
        assert t[0] == ds[0];
      } else {
        assert t[0] == rest[0];
      }
    }
    TrimStartSkipsBlank(ws, t);
    ParseSignedOf(sign, ds, rest);
    assert ParseParts([], sign, ds, rest);
  }

  /** A letter before the digits stops `parseInt` at once, so a status such
      as "x401" is unreadable. */
  lemma ParseIntLetterFirst()
    ensures ParseInt("x401") == NaN
  {
    ParseIntOfParts([], [], [], "x401");
    assert [] + ([] + ([] + "x401")) == "x401";
  }

  /** Every text splits into the parts `parseInt` reads, so `ParseIntOfParts`
      covers every input. */
  lemma SplitForParse(s: string) returns (ws: string, sign: string, ds: string, rest: string)
    ensures ParseParts(ws, sign, ds, rest)
    ensures s == ws + (sign + (ds + rest))
  {
    var t := TrimStart(s);
    ws := s[..|s| - |t|];
    assert s == ws + t;
    var u;
    sign, u := SplitSign(t);
    ds, rest := SplitRun(u);
  }

  /** An optional leading sign and the text after it. */
  lemma SplitSign(t: string) returns (sign: string, u: string)
    ensures sign == "" || sign == "+" || sign == "-"
    ensures t == sign + u
    ensures sign == [] ==> u == t && (u == [] || (u[0] != '+' && u[0] != '-'))
  {
    if t != [] && (t[0] == '+' || t[0] == '-') {
      sign, u := [t[0]], t[1..];
    } else {
      sign, u := [], t;
    }
  }

  /** The longest leading run of digits and the text after it. */
  lemma SplitRun(u: string) returns (ds: string, rest: string)
    ensures AllDigits(ds) && (rest == [] || !IsDigit(rest[0]))
    ensures u == ds + rest
    ensures ds == [] ==> rest == u
  {
    ds := DigitRun(u);
    rest := u[|ds|..];
    assert u == ds + rest;
  }

  /** `String.prototype.padStart(width, fill)` with a one-character fill. */
  function PadStart(s: string, width: nat, fill: char): (r: string)
    ensures |r| == if |s| >= width then |s| else width
    ensures r[|r| - |s|..] == s
    ensures forall i :: 0 <= i < |r| - |s| ==> r[i] == fill
  {
    if |s| >= width then s else seq(width - |s|, _ => fill) + s
  }
}
